=== FILE: README.md ===
# Digital-product wizard: a Dafny model

This project models the form logic of a small React Native app for listing and creating
"digital product" items. The app has a two-step creation wizard, an in-memory item store
and a detail screen. The model covers four parts of the source:

- the **About step** (`CreateItemAboutScreen`). It holds the name, a description capped at
  2000 characters, a price typed as text, and up to five cover-photo slots. It builds the
  draft handed to the next step.
- the **Details step** (`CreateItemDetailsScreen`). It holds lists of benefits and
  attributes edited by row id, and a category picker. Its save builds the final item and
  dispatches it to the store.
- the **`items` slice** of the store (`itemsSlice`). This is an append-only list whose only
  action is `addItem`.
- the **detail screen** (`ItemDetailScreen`). It looks an item up by id and derives the
  avatar text, the button label and the hero image.

Each React handler is written as a pure function from state to state (or to a value). Each
screen's input events are folded over its initial state (`Step`/`Run`), so invariants can
be stated for every reachable form. The modules are:

- `Wrappers`: `Option`
- `Seqs`: `filter` and `map` with their lemmas
- `JsText`: JavaScript `trim` and string truthiness
- `Price`: the price sanitiser and JavaScript `Number` on digit-and-dot strings
- `ItemModel`: the draft, attribute and item records
- `AboutStep`, `DetailsStep`, `ItemsSlice`, `ItemDetail`: the four parts above
- `CreateFlow`: the wizard end to end

Inputs the app takes from its environment are parameters here:

- row ids and the item id, which the app takes from `Date.now()`;
- the draft the Details step receives through navigation, which may be absent.

Three facts about the code shape the model:

- an item saved without a draft has no name, description, price or photos, so those four
  fields are `Option`s;
- the price is 0 when nothing remains after sanitising, and also when the sanitised text
  has two dots, has no digit, or overflows a double;
- the screens have no image picker; cover photos are pasted URLs.

## Model

| member | source | states |
|---|---|---|
| JsText.Trim | src/screens/CreateItemAboutScreen.js:64-65 | The result is the input with white space cut from both ends: a slice `s[a..b]` where everything before `a` and from `b` on is white space. It neither starts nor ends with white space. It is non-empty exactly when the input has a character that is not white space. |
| JsText.TrimExample | src/screens/CreateItemAboutScreen.js:64-65 | " ab " trims to "ab". |
| JsText.TrimIdempotent | src/screens/CreateItemAboutScreen.js:64-65 | Trimming an already trimmed string changes nothing, so the draft's name and description are stable. |
| JsText.TrimOfTrimmed | src/screens/CreateItemDetailsScreen.js:68 | A string without white space at either end is its own trim. |
| JsText.TrimEmptyIff | src/screens/CreateItemAboutScreen.js:43 | A string trims to empty exactly when all its characters are white space. |
| Price.Sanitise | src/screens/CreateItemAboutScreen.js:39 | Only digits and `.` remain. Every digit or dot of the input is kept. No `-` survives. |
| Price.SanitiseAppend | src/screens/CreateItemAboutScreen.js:39 | The sanitiser distributes over concatenation, so kept characters stay in their input order. |
| Price.SanitiseIdempotent | src/screens/CreateItemAboutScreen.js:39 | Sanitising twice equals sanitising once. |
| Price.SanitiseClean | src/screens/CreateItemAboutScreen.js:39 | Text made only of digits and dots passes unchanged. |
| Price.DecimalValueDefined | src/screens/CreateItemAboutScreen.js:39-40 | A digit-and-dot string is a decimal literal exactly when it has at most one dot and at least one digit. Its value is then non-negative. |
| Price.ToDouble | src/screens/CreateItemAboutScreen.js:39-40 | A value is finite exactly when it is below 2^1024 - 2^970. A finite result is positive exactly when the value exceeds 2^-1075. |
| Price.ToNumber | src/screens/CreateItemAboutScreen.js:39-40 | `Number` of a digit-and-dot string is never a negative finite number. |
| Price.ParsePrice | src/screens/CreateItemAboutScreen.js:38-41 | The price is never negative. |
| Price.PriceZeroWhenMalformed | src/screens/CreateItemAboutScreen.js:39-40 | The price is 0 when the sanitised text is empty, a lone `.`, has no digit, or has two or more dots. |
| Price.PriceOfDecimal | src/screens/CreateItemAboutScreen.js:39-40 | When the retained text is a decimal literal below the overflow bound, the price is its decimal value, or 0 if that value underflows. |
| Price.PricePositiveIff | src/screens/CreateItemAboutScreen.js:39-40 | The price is positive exactly when the retained text is a decimal literal whose value lies strictly between the underflow and overflow bounds. |
| Price.PriceIgnoresNoise | src/screens/CreateItemAboutScreen.js:39 | The raw text and its sanitised form have the same price. |
| Price.DecimalExample | src/screens/CreateItemAboutScreen.js:39 | "12.50" has the decimal value 12.5. |
| Price.PriceExampleDecimal | src/screens/CreateItemAboutScreen.js:39-40 | "12.50" prices at 12.5. |
| Price.PriceExampleMinus | src/screens/CreateItemAboutScreen.js:39-40 | "-7" prices at 7: the sign is deleted, not honoured. |
| Price.PriceExampleTwoDots | src/screens/CreateItemAboutScreen.js:39-40 | "1.2.3" prices at 0, because `Number` gives NaN. |
| AboutStep.InitialAbout | src/screens/CreateItemAboutScreen.js:33-36 | The screen opens with every field empty and no cover slot. That form is valid, Next is disabled on it, and the counter shows 2000. |
| AboutStep.RemainingChars | src/screens/CreateItemAboutScreen.js:98 | On a valid form the counter is between 0 and 2000. It shows 2000 exactly when the description is empty. |
| AboutStep.TruncateDescription | src/screens/CreateItemAboutScreen.js:89-91 | The stored description is a prefix of the input of at most 2000 characters. It is either the whole input or exactly 2000 characters long. |
| AboutStep.TruncateDescriptionSpec | src/screens/CreateItemAboutScreen.js:89-91 | The input is stored unchanged exactly when it fits. Otherwise its 2000-character prefix is stored. Truncating again changes nothing. |
| AboutStep.AddCoverSlot | src/screens/CreateItemAboutScreen.js:45-48 | Below five slots, one empty slot is appended and the earlier slots are untouched. At five slots nothing changes. |
| AboutStep.UpdateCoverAt | src/screens/CreateItemAboutScreen.js:50-54 | Slot `idx` becomes the trimmed URL. The length and every other slot are unchanged. |
| AboutStep.SpliceStart | src/screens/CreateItemAboutScreen.js:58 | The start index of `splice`: an index from 0 to the length is taken as it is, a larger one becomes the length, a negative one counts back from the end, and one before the start becomes 0. |
| AboutStep.RemoveCoverAt | src/screens/CreateItemAboutScreen.js:56-60 | For an index in range, the list loses one slot, keeps the slots before it and shifts later ones down. An index at or past the end changes nothing. A negative index from minus the length up removes the slot that many places from the end, and one below that removes the first slot. |
| AboutStep.RemoveNegativeExample | src/screens/CreateItemAboutScreen.js:56-60 | Removing at -1 from ["a", "b"] leaves ["a"], and at -5 leaves ["b"]. |
| AboutStep.RemoveUndoesAdd | src/screens/CreateItemAboutScreen.js:45-60 | Removing the slot just added restores the list. |
| AboutStep.UpdateCoverIdempotent | src/screens/CreateItemAboutScreen.js:50-54 | Pasting the same URL twice equals pasting it once. Pasting an already trimmed URL gives the same slot. |
| AboutStep.CanProceedIff | src/screens/CreateItemAboutScreen.js:43 | Next is enabled exactly when the name and the description each contain a visible character and the price text holds a decimal literal with a positive, representable value. |
| AboutStep.HandleNext | src/screens/CreateItemAboutScreen.js:62-68 | The draft has the trimmed name, the trimmed description and the price of the price text, which is non-negative. Its photos are the slots with empty ones removed. Each photo is non-empty and comes from a slot, and every filled slot is among them. |
| AboutStep.DraftBounds | src/screens/CreateItemAboutScreen.js:62-68 | A draft from a valid form has at most five photos and a description of at most 2000 characters. Its name and description are already trimmed. When Next is enabled, both are non-empty and the price is positive. |
| AboutStep.DraftPhotosInOrder | src/screens/CreateItemAboutScreen.js:67 | Cut the slots at any point: the draft's photos from the first part come before those from the second. Each non-empty URL appears in the draft as often as in the slots. |
| AboutStep.CanProceed | src/screens/CreateItemAboutScreen.js:43 | Next is enabled exactly when the name and the description each hold a character that is not white space and the price is positive. |
| AboutStep.PressNext | src/screens/CreateItemAboutScreen.js:178 | A draft is produced exactly when the Next button is enabled. |
| AboutStep.Step | src/screens/CreateItemAboutScreen.js:79-173 | Every input event keeps the description within 2000 characters and the slots at five or fewer. Only the slot events change the slots. |
| AboutStep.RunKeepsValid | src/screens/CreateItemAboutScreen.js:45-91 | Any sequence of events keeps the form valid. |
| AboutStep.ReachableBounds | src/screens/CreateItemAboutScreen.js:98 | On every reachable form there are at most five slots, and the remaining-characters counter is between 0 and 2000. |
| DetailsStep.DeleteById | src/screens/CreateItemDetailsScreen.js:46 | No row with the id survives. Every other row is kept, and nothing new appears. |
| DetailsStep.AddBenefit | src/screens/CreateItemDetailsScreen.js:41 | Exactly one blank benefit with the new id is appended. The existing rows are untouched. |
| DetailsStep.ChangeBenefit | src/screens/CreateItemDetailsScreen.js:43-44 | Every row with the id gets the text. The ids, the length and all other rows are unchanged. |
| DetailsStep.DeleteBenefit | src/screens/CreateItemDetailsScreen.js:46 | Every benefit with the id is removed. All others are kept, and nothing new appears. |
| DetailsStep.AddAttribute | src/screens/CreateItemDetailsScreen.js:48-49 | Exactly one attribute with the new id and both fields blank is appended. The existing rows are untouched. |
| DetailsStep.ChangeAttribute | src/screens/CreateItemDetailsScreen.js:51-52 | Only the named field of rows with the id changes. Their other field, all ids and all other rows are unchanged. |
| DetailsStep.DeleteAttribute | src/screens/CreateItemDetailsScreen.js:54 | Every attribute with the id is removed. All others are kept, and nothing new appears. |
| DetailsStep.DeleteByIdSpec | src/screens/CreateItemDetailsScreen.js:46 | Deleting by id distributes over concatenation, so order is kept. Each other row keeps its multiplicity. Rows with the id vanish. |
| DetailsStep.DeleteByIdIdempotent | src/screens/CreateItemDetailsScreen.js:54 | Deleting twice equals deleting once. Deleting an id no row has changes nothing. |
| DetailsStep.DeleteAfterChangeBenefit | src/screens/CreateItemDetailsScreen.js:43-46 | For any list and any id, repeated ids included, editing the rows with an id and then deleting that id equals deleting it. |
| DetailsStep.DeleteUndoesAddBenefit | src/screens/CreateItemDetailsScreen.js:41-46 | Deleting a freshly added benefit row by its id restores the list, whatever was typed into it in between. |
| DetailsStep.DeleteUndoesAddAttribute | src/screens/CreateItemDetailsScreen.js:48-54 | Deleting a freshly added attribute row by its id restores the list, whatever was typed into either field. |
| DetailsStep.SavedBenefits | src/screens/CreateItemDetailsScreen.js:59 | The saved benefits are non-empty texts, each taken from some row. Every non-empty row text is among them. |
| DetailsStep.SavedBenefitsSpec | src/screens/CreateItemDetailsScreen.js:59 | Saving distributes over concatenation, so order is kept. Each non-empty text is kept as often as rows carry it. |
| DetailsStep.SavedAttributes | src/screens/CreateItemDetailsScreen.js:60 | The saved attributes are exactly the rows with both fields non-empty. |
| DetailsStep.SavedAttributesSpec | src/screens/CreateItemDetailsScreen.js:60 | The saved attributes keep the complete rows in order, with their multiplicity, and drop all others. |
| DetailsStep.HandleSave | src/screens/CreateItemDetailsScreen.js:56-63 | The item has the new id and the selected category. It carries the draft's four fields, or none without a draft. Its lists are the saved benefits and attributes. |
| DetailsStep.PressSave | src/screens/CreateItemDetailsScreen.js:56-66 | With save enabled, exactly the built item is appended to the store. With save disabled, the store is unchanged. |
| DetailsStep.Step | src/screens/CreateItemDetailsScreen.js:41-164 | Every event keeps the category either empty or one of the picker's labels. Only the benefit handlers at lines 41-46 change the benefits. Only the attribute handlers at lines 48-54 change the attributes. Only the picker at lines 150-161 changes the category, and always to one of its labels. |
| DetailsStep.RunKeepsValid | src/screens/CreateItemDetailsScreen.js:150-164 | Any sequence of events keeps the category valid. |
| DetailsStep.InitialDetails | src/screens/CreateItemDetailsScreen.js:35-39 | The screen opens with one blank benefit row, one blank attribute row, each with the id it is given, and no category. That form is valid and save is disabled on it. |
| DetailsStep.CanNext | src/screens/CreateItemDetailsScreen.js:68 | Save is enabled exactly when the category holds a character that is not white space. |
| DetailsStep.CategoryLabel | src/screens/CreateItemDetailsScreen.js:158-161 | Each picker option stores one of the four offered labels. |
| DetailsStep.CategoryLabelsExact | src/screens/CreateItemDetailsScreen.js:158-161 | The offered labels are exactly the values the options store, and no two options store the same value. |
| DetailsStep.LabelsAreTrimmed | src/screens/CreateItemDetailsScreen.js:158-161 | No category label has white space at either end. |
| DetailsStep.CanNextIff | src/screens/CreateItemDetailsScreen.js:68 | On a valid form, save is enabled exactly when a category is set, that is, exactly when it is one of the four labels. |
| DetailsStep.ReachableCategory | src/screens/CreateItemDetailsScreen.js:150-164 | On every reachable form the category is '', Photography, Digital Art, Consulting or Apparel. |
| DetailsStep.InitialDetailsBlank | src/screens/CreateItemDetailsScreen.js:35-39 | The initial form cannot be saved. Its single blank benefit and blank attribute would both be dropped. |
| ItemsSlice.InitialState | src/redux/itemsSlice.js:5-7 | The store starts empty. |
| ItemsSlice.Reduce | src/redux/itemsSlice.js:14-16 | `addItem` grows the list by one, keeps every earlier item in place and puts the payload last. Any other action leaves the state unchanged. |
| ItemsSlice.ReduceAllAppends | src/redux/itemsSlice.js:12-18 | Dispatching actions appends their payloads in order. Nothing is removed or reordered. |
| ItemsSlice.StoreIsPayloads | src/redux/itemsSlice.js:5-18 | From the initial state, the list is exactly the dispatched payloads. |
| ItemsSlice.AddItemKeepsDuplicates | src/redux/itemsSlice.js:15 | A payload whose id is already stored is still appended. |
| ItemDetail.FirstIndex | src/screens/ItemDetailScreen.js:22 | The index found is the first whose item has the id. Without one, no item has it. |
| ItemDetail.Find | src/screens/ItemDetailScreen.js:22 | A found item is stored and has the id. Nothing is found exactly when no item has the id. |
| ItemDetail.FindEarliest | src/screens/ItemDetailScreen.js:22 | When several items share the id, the earliest one is returned. |
| ItemDetail.FindAfterAdd | src/screens/ItemDetailScreen.js:22 | After `addItem`, a lookup returns what it did before. Only an id not yet stored finds the new item. |
| ItemDetail.AvatarText | src/screens/ItemDetailScreen.js:54 | The avatar shows the first two characters of the name, or the whole name if shorter. It shows 'US' when the name is empty or absent. |
| ItemDetail.ButtonLabelOf | src/screens/ItemDetailScreen.js:36 | The label is 'Next' exactly when the price is absent or 0. Otherwise it offers to buy at the price. |
| ItemDetail.HeroImage | src/screens/ItemDetailScreen.js:46-47 | A hero image is shown exactly when there is a cover photo. It is the first one. |
| ItemDetail.ViewItem | src/screens/ItemDetailScreen.js:20-54 | The not-found branch is taken exactly when no stored item has the id. Otherwise the item shown is the first stored item with the id. Its avatar, button label and hero image are the ones derived from that item. |
| CreateFlow.WizardSavesWellFormedItem | src/screens/CreateItemDetailsScreen.js:56-66 | With both buttons enabled, saving appends exactly one item. That item has a visible trimmed name, a description of at most 2000 characters and a positive price. It has at most five non-empty photos, non-empty benefits, complete attributes and one of the four categories. |
| CreateFlow.SavedItemIsShown | src/screens/ItemDetailScreen.js:20-54 | A saved item with an unused id is found by the detail screen. It gets a buy label at its price and an avatar that starts its name. |
| CreateFlow.ReachableWizardSavesWellFormedItem | src/screens/CreateItemDetailsScreen.js:35-66 | After any input on both screens from their initial states, pressing Next and then save stores exactly one item, and that item is well formed. |

## Left out

- Rendering, layout and styling of every screen, and all of `src/screens/ItemListScreen.js`. The detail screen's conditional sections (price card, about, additional details, benefits, category) are rendering too.
- Navigation: `navigate`, `popToTop`, `setOptions` (the detail title) and `src/navigation/AppNavigator.js`. These are library calls or static configuration.
- React and Redux wiring (`useState`, `useMemo`, `useSelector`, `useDispatch`, Immer's mutable `push`). Handlers are pure transitions and the store is a value. The hook called after the early return in the detail screen is a React rule, not behaviour.
- `Date.now()`: every row id and item id is a parameter, and nothing assumes ids are unique.
- The unused `currency` helper and all `toFixed` price labels. `ItemDetail.ButtonLabelOf` returns the price to print, not the formatted text.
- Price.ToDouble: keeps the exact decimal value instead of rounding it to the nearest double. Only overflow to +Infinity and underflow to 0 are modelled, because those are what decide finiteness and positivity.
- Price.ToNumber: covers `Number` only on strings of digits and dots. Signs, exponents, white space, hex and `Infinity` never reach it after sanitising.
- Strings are Dafny strings of Unicode scalar values, not UTF-16 code units. A character outside the Basic Multilingual Plane counts as one unit here and two in JavaScript. This affects the 2000-character cut and the two-character avatar only for such characters.
- AboutStep.UpdateCoverAt: requires an index of an existing slot. A JavaScript assignment past the end would leave holes in the array. The screen only passes the index of a rendered slot.
- AboutStep.Step: drops slot events whose index is not a rendered slot, since no such input exists on screen.
- DetailsStep.ChangeAttribute: takes one of the two field names the screen passes. The JavaScript computed key would accept any property name.
- There is no image picker to model: the screens only take pasted cover-photo URLs.

=== FILE: about.dfy ===
/** The first wizard step (`CreateItemAboutScreen`): name, description, price text
    and up to five cover-photo slots, each handler a pure function of the form. */
module AboutStep {
  import opened Wrappers
  import opened Seqs
  import opened JsText
  import opened Price
  import opened ItemModel

  const MaxDesc: nat := 2000
  const MaxCovers: nat := 5

  /** The screen's local state. A cover slot holds a URL, or '' while still empty. */
  datatype AboutForm = AboutForm(name: string, description: string, priceRaw: string, coverPhotos: seq<string>)

  /** Every field empty and no cover slot: valid, and Next is disabled. */
  function InitialAbout(): (f: AboutForm)
    ensures ValidAbout(f) && !CanProceed(f)
    ensures RemainingChars(f) == MaxDesc
  {
    AboutForm("", "", "", [])
  }

  /** What the handlers keep true: the description fits the counter and there are at
      most five slots. */
  predicate ValidAbout(f: AboutForm) {
    |f.description| <= MaxDesc && |f.coverPhotos| <= MaxCovers
  }

  /** The description edit handler keeps the text when it fits and its first 2000
      characters otherwise. */
  function TruncateDescription(t: string): (r: string)
    ensures |r| <= MaxDesc
    ensures |r| <= |t| && r == t[..|r|]
    ensures |r| == |t| || |r| == MaxDesc
  {
    if |t| <= MaxDesc then t else t[..MaxDesc]
  }

  /** The number under the description box. */
  function RemainingChars(f: AboutForm): (n: int)
    ensures ValidAbout(f) ==> 0 <= n <= MaxDesc
    ensures n == MaxDesc <==> f.description == ""
  {
    MaxDesc - |f.description|
  }

  /** Appends one empty slot, unless five slots exist already. */
  function AddCoverSlot(covers: seq<string>): (r: seq<string>)
    ensures |covers| < MaxCovers ==> |r| == |covers| + 1 && r[..|covers|] == covers && r[|covers|] == ""
    ensures |covers| >= MaxCovers ==> r == covers
  {
    if |covers| >= MaxCovers then covers else covers + [""]
  }

  /** Sets slot `idx` to the trimmed URL. Only slots on screen can be edited. */
  function UpdateCoverAt(covers: seq<string>, idx: int, url: string): (r: seq<string>)
    requires 0 <= idx < |covers|
    ensures |r| == |covers|
    ensures r[idx] == Trim(url)
    ensures forall j :: 0 <= j < |covers| && j != idx ==> r[j] == covers[j]
  {
    covers[idx := Trim(url)]
  }

  /** The index `splice(idx, 1)` starts at: negative counts from the end, clamped to
      the array. */
  function SpliceStart(len: nat, idx: int): (k: nat)
    ensures k <= len
    ensures 0 <= idx <= len ==> k == idx
    ensures idx > len ==> k == len
    ensures idx < 0 && 0 <= len + idx ==> k == len + idx
    ensures len + idx < 0 ==> k == 0
  {
    if idx < 0 then (if len + idx < 0 then 0 else len + idx)
    else if idx > len then len else idx
  }

  /** `copy.splice(idx, 1)`: removes the slot at `idx`, shifting later slots down. */
  function RemoveCoverAt(covers: seq<string>, idx: int): (r: seq<string>)
    ensures 0 <= idx < |covers| ==>
      && |r| == |covers| - 1
      && r[..idx] == covers[..idx]
      && (forall j :: idx <= j < |r| ==> r[j] == covers[j + 1])
    ensures idx >= |covers| ==> r == covers
    ensures |covers| > 0 && idx < 0 ==> |r| == |covers| - 1
    ensures -|covers| <= idx < 0 ==> r == covers[..|covers| + idx] + covers[|covers| + idx + 1..]
    ensures idx < -|covers| ==> r == if |covers| == 0 then covers else covers[1..]
  {
    var k := SpliceStart(|covers|, idx);
    if k < |covers| then covers[..k] + covers[k + 1..] else covers
  }

  /** The gate of the Next button. */
  predicate CanProceed(f: AboutForm)
    ensures CanProceed(f) <==> HasVisible(f.name) && HasVisible(f.description) && ParsePrice(f.priceRaw) > 0.0
  {
    |Trim(f.name)| > 0 && |Trim(f.description)| > 0 && ParsePrice(f.priceRaw) > 0.0
  }

  /** `handleNext`'s draft: trimmed text, the price, and the filled slots in order. */
  function HandleNext(f: AboutForm): (d: Draft)
    ensures d.name == Trim(f.name) && d.description == Trim(f.description)
    ensures d.price == ParsePrice(f.priceRaw) && d.price >= 0.0
    ensures d.coverPhotos == Filter(Truthy, f.coverPhotos)
    ensures |d.coverPhotos| <= |f.coverPhotos|
    ensures forall i :: 0 <= i < |d.coverPhotos| ==> d.coverPhotos[i] != "" && d.coverPhotos[i] in f.coverPhotos
    ensures forall i :: 0 <= i < |f.coverPhotos| && f.coverPhotos[i] != "" ==> f.coverPhotos[i] in d.coverPhotos
  {
    Draft(Trim(f.name), Trim(f.description), ParsePrice(f.priceRaw), Filter(Truthy, f.coverPhotos))
  }

  /** Pressing Next: a draft when the button is enabled, nothing otherwise. */
  function PressNext(f: AboutForm): (r: Option<Draft>)
    ensures r.Some? <==> CanProceed(f)
    ensures r.Some? ==> r.value == HandleNext(f)
  {
    if CanProceed(f) then Some(HandleNext(f)) else None
  }

  /** The input events of the screen. Slot events carry the index of the slot they
      were rendered for. */
  datatype AboutEvent =
    | EditName(text: string)
    | EditDescription(text: string)
    | EditPrice(text: string)
    | AddCover
    | EditCover(index: int, url: string)
    | RemoveCover(index: int)

  /** One event applied to the form. An event for a slot that is not on screen cannot
      be delivered and changes nothing. */
  function Step(f: AboutForm, e: AboutEvent): (g: AboutForm)
    ensures ValidAbout(f) ==> ValidAbout(g)
    ensures g.coverPhotos != f.coverPhotos ==> e.AddCover? || e.EditCover? || e.RemoveCover?
  {
    match e
    case EditName(t) => f.(name := t)
    case EditDescription(t) => f.(description := TruncateDescription(t))
    case EditPrice(t) => f.(priceRaw := t)
    case AddCover => f.(coverPhotos := AddCoverSlot(f.coverPhotos))
    case EditCover(i, url) =>
      if 0 <= i < |f.coverPhotos| then f.(coverPhotos := UpdateCoverAt(f.coverPhotos, i, url)) else f
    case RemoveCover(i) =>
      if 0 <= i < |f.coverPhotos| then f.(coverPhotos := RemoveCoverAt(f.coverPhotos, i)) else f
  }

  function Run(f: AboutForm, es: seq<AboutEvent>): AboutForm
    decreases |es|
  {
    if |es| == 0 then f else Run(Step(f, es[0]), es[1..])
  }

  /** Every sequence of events keeps the form valid. */
  lemma {:induction false} RunKeepsValid(f: AboutForm, es: seq<AboutEvent>)
    requires ValidAbout(f)
    ensures ValidAbout(Run(f, es))
    decreases |es|
  {
    if |es| > 0 {
      RunKeepsValid(Step(f, es[0]), es[1..]);
    }
  }

  /** Whatever the user does, the screen never shows more than five slots and the
      description counter stays between 0 and 2000. */
  lemma ReachableBounds(es: seq<AboutEvent>)
    ensures |Run(InitialAbout(), es).coverPhotos| <= MaxCovers
    ensures 0 <= RemainingChars(Run(InitialAbout(), es)) <= MaxDesc
  {
    RunKeepsValid(InitialAbout(), es);
  }

  /** The stored description equals the input exactly when the input fits, and is
      otherwise its 2000-character prefix; truncating again changes nothing. */
  lemma TruncateDescriptionSpec(t: string)
    ensures TruncateDescription(t) == t <==> |t| <= MaxDesc
    ensures |t| > MaxDesc ==> TruncateDescription(t) == t[..MaxDesc]
    ensures TruncateDescription(TruncateDescription(t)) == TruncateDescription(t)
  {
  }

  /** An added slot taken away again restores the list. */
  lemma RemoveUndoesAdd(covers: seq<string>)
    requires |covers| < MaxCovers
    ensures RemoveCoverAt(AddCoverSlot(covers), |covers|) == covers
  {
    assert AddCoverSlot(covers)[..|covers|] == covers;
  }

  /** A negative index counts from the end: -1 removes the last slot, and an index
      before the start removes the first. */
  lemma RemoveNegativeExample()
    ensures RemoveCoverAt(["a", "b"], -1) == ["a"]
    ensures RemoveCoverAt(["a", "b"], -5) == ["b"]
  {
    assert ["a", "b"][..1] == ["a"] && ["a", "b"][2..] == [];
    assert ["a", "b"][..0] == [] && ["a", "b"][1..] == ["b"];
  }

  /** Pasting into a slot and reading it back yields the trimmed URL, and pasting the
      same text twice is the same as pasting it once. */
  lemma UpdateCoverIdempotent(covers: seq<string>, idx: int, url: string)
    requires 0 <= idx < |covers|
    ensures UpdateCoverAt(UpdateCoverAt(covers, idx, url), idx, url) == UpdateCoverAt(covers, idx, url)
    ensures UpdateCoverAt(covers, idx, Trim(url)) == UpdateCoverAt(covers, idx, url)
  {
    TrimIdempotent(url);
  }

  /** The Next gate, stated without `trim`: the name and the description each contain a
      visible character, and the price text holds a decimal literal with a positive
      value a double can represent. */
  lemma CanProceedIff(f: AboutForm)
    ensures CanProceed(f) <==>
      && HasVisible(f.name)
      && HasVisible(f.description)
      && DecimalValue(Sanitise(f.priceRaw)).Some?
      && UnderflowBound < DecimalValue(Sanitise(f.priceRaw)).value < OverflowBound
  {
    PricePositiveIff(f.priceRaw);
  }

  /** A draft from a valid form has at most five photos and a description that fits;
      when Next is enabled its name and description are visible and already trimmed and
      its price is positive. */
  lemma DraftBounds(f: AboutForm)
    requires ValidAbout(f)
    ensures |HandleNext(f).coverPhotos| <= MaxCovers
    ensures |HandleNext(f).description| <= MaxDesc
    ensures Trim(HandleNext(f).name) == HandleNext(f).name
    ensures Trim(HandleNext(f).description) == HandleNext(f).description
    ensures CanProceed(f) ==>
      HandleNext(f).name != "" && HandleNext(f).description != "" && HandleNext(f).price > 0.0
  {
    TrimIdempotent(f.name);
    TrimIdempotent(f.description);
  }

  /** The draft's photos are the filled slots in order: cutting the slots at any point,
      the photos of the first part come before those of the second, and each URL appears
      in the draft as often as in the slots. */
  lemma DraftPhotosInOrder(f: AboutForm, k: nat, url: string)
    requires k <= |f.coverPhotos|
    ensures HandleNext(f).coverPhotos ==
      HandleNext(f.(coverPhotos := f.coverPhotos[..k])).coverPhotos
      + HandleNext(f.(coverPhotos := f.coverPhotos[k..])).coverPhotos
    ensures url != "" ==> multiset(HandleNext(f).coverPhotos)[url] == multiset(f.coverPhotos)[url]
  {
    assert f.coverPhotos == f.coverPhotos[..k] + f.coverPhotos[k..];
    FilterAppend(Truthy, f.coverPhotos[..k], f.coverPhotos[k..]);
    FilterCount(Truthy, f.coverPhotos, url);
  }
}

=== FILE: detail.dfy ===
/** The detail screen (`ItemDetailScreen`): the lookup of an item by id and the values
    the screen derives from it. */
module ItemDetail {
  import opened Wrappers
  import opened ItemModel
  import opened ItemsSlice

  /** The position of the first item with that id (`Array.prototype.find`). */
  function FirstIndex(items: seq<Item>, id: string): (k: Option<nat>)
    ensures k.Some? ==> k.value < |items| && items[k.value].id == id
    ensures k.Some? ==> forall j :: 0 <= j < k.value ==> items[j].id != id
    ensures k.None? ==> forall j :: 0 <= j < |items| ==> items[j].id != id
  {
    if |items| == 0 then None
    else if items[0].id == id then Some(0)
    else match FirstIndex(items[1..], id)
      case None => None
      case Some(k) => Some(k + 1)
  }

  /** The store selector of the detail screen: the first stored item with the id, if any. */
  function Find(items: seq<Item>, id: string): (r: Option<Item>)
    ensures r.Some? ==> r.value.id == id && r.value in items
    ensures r.None? <==> forall j :: 0 <= j < |items| ==> items[j].id != id
  {
    match FirstIndex(items, id)
    case None => None
    case Some(k) => Some(items[k])
  }

  /** The lookup returns the earliest item carrying the id. */
  lemma FindEarliest(items: seq<Item>, id: string, k: nat)
    requires k < |items| && items[k].id == id
    requires forall j :: 0 <= j < k ==> items[j].id != id
    ensures Find(items, id) == Some(items[k])
  {
    var m := FirstIndex(items, id);
    assert m.Some?;
    assert !(m.value < k) && !(k < m.value);
  }

  /** After an `addItem`, a lookup finds what it found before; only an id nothing earlier
      carried now finds the new item. A second item with a used id is never shown. */
  lemma FindAfterAdd(s: ItemsState, p: Item, id: string)
    ensures Find(Reduce(s, AddItem(p)).items, id) ==
      if Find(s.items, id).Some? then Find(s.items, id)
      else if p.id == id then Some(p)
      else None
  {
    var t := Reduce(s, AddItem(p)).items;
    match FirstIndex(s.items, id)
    case Some(k) =>
      FindEarliest(t, id, k);
    case None =>
      if p.id == id {
        FindEarliest(t, id, |s.items|);
      }
  }

  /** The avatar fallback text: the name's first two characters, or 'US' when the name
      is empty or absent. */
  function AvatarText(name: Option<string>): (r: string)
    ensures 1 <= |r| <= 2
    ensures name.None? || name.value == "" ==> r == "US"
    ensures name.Some? && name.value != "" ==>
      |r| <= |name.value| && r == name.value[..|r|] && (|r| == 2 || r == name.value)
  {
    match name
    case None => "US"
    case Some(n) => if n == "" then "US" else if |n| < 2 then n else n[..2]
  }

  /** The bottom button's label: a buy label when the price is truthy, else 'Next'. */
  datatype ButtonLabel = BuyFor(price: real) | NextLabel

  function ButtonLabelOf(price: Option<real>): (b: ButtonLabel)
    ensures b.NextLabel? <==> price.None? || price.value == 0.0
    ensures b.BuyFor? ==> price == Some(b.price)
  {
    match price
    case Some(p) => if p != 0.0 then BuyFor(p) else NextLabel
    case None => NextLabel
  }

  /** The hero image: the first cover photo, only when there is one. */
  function HeroImage(coverPhotos: Option<seq<string>>): (h: Option<string>)
    ensures h.Some? <==> coverPhotos.Some? && |coverPhotos.value| > 0
    ensures h.Some? ==> h.value == coverPhotos.value[0]
  {
    match coverPhotos
    case Some(cs) => if |cs| > 0 then Some(cs[0]) else None
    case None => None
  }

  datatype DetailView =
    | NotFound
    | Found(item: Item, avatar: string, button: ButtonLabel, hero: Option<string>)

  /** What the screen shows for `itemId`. */
  function ViewItem(s: ItemsState, itemId: string): (v: DetailView)
    ensures v.NotFound? <==> forall j :: 0 <= j < |s.items| ==> s.items[j].id != itemId
    ensures v.Found? ==> v.item.id == itemId && v.item in s.items
    ensures v.Found? ==>
      exists k :: 0 <= k < |s.items| && s.items[k] == v.item && forall j :: 0 <= j < k ==> s.items[j].id != itemId
    ensures v.Found? ==>
      v.avatar == AvatarText(v.item.name) && v.button == ButtonLabelOf(v.item.price) && v.hero == HeroImage(v.item.coverPhotos)
  {
    match Find(s.items, itemId)
    case None => NotFound
    case Some(item) =>
      Found(item, AvatarText(item.name), ButtonLabelOf(item.price), HeroImage(item.coverPhotos))
  }
}

=== FILE: details.dfy ===
/** The second wizard step (`CreateItemDetailsScreen`): editable lists of benefits and
    attributes addressed by id, a category picker, and the save that builds the item.
    Ids come from `Date.now()` in the app and are inputs here; they may repeat. */
module DetailsStep {
  import opened Wrappers
  import opened Seqs
  import opened JsText
  import opened ItemModel
  import opened ItemsSlice

  datatype Benefit = Benefit(id: string, value: string)

  /** Which half of an attribute row an edit targets. */
  datatype AttributeField = AttributeName | AttributeValue

  datatype CategoryOption = Photography | DigitalArt | Consulting | Apparel

  datatype DetailsForm = DetailsForm(benefits: seq<Benefit>, attributes: seq<Attribute>, category: string)

  /** The values the category picker offers. */
  const CategoryLabels: set<string> := {"Photography", "Digital Art", "Consulting", "Apparel"}

  /** The value a picker option stores: one of the offered labels. */
  function CategoryLabel(c: CategoryOption): (r: string)
    ensures r in CategoryLabels
  {
    match c
    case Photography => "Photography"
    case DigitalArt => "Digital Art"
    case Consulting => "Consulting"
    case Apparel => "Apparel"
  }

  /** The options store exactly the offered labels, a different one each. */
  lemma CategoryLabelsExact(name: string, c: CategoryOption, d: CategoryOption)
    ensures name in CategoryLabels <==> exists e :: CategoryLabel(e) == name
    ensures CategoryLabel(c) == CategoryLabel(d) ==> c == d
  {
    if name in CategoryLabels {
      if name == "Photography" {
        assert CategoryLabel(Photography) == name;
      } else if name == "Digital Art" {
        assert CategoryLabel(DigitalArt) == name;
      } else if name == "Consulting" {
        assert CategoryLabel(Consulting) == name;
      } else {
        assert CategoryLabel(Apparel) == name;
      }
    }
  }

  /** One blank benefit row, one blank attribute row, no category. */
  function InitialDetails(benefitId: string, attributeId: string): (f: DetailsForm)
    ensures ValidDetails(f) && !CanNext(f)
    ensures |f.benefits| == 1 && f.benefits[0].id == benefitId && f.benefits[0].value == ""
    ensures |f.attributes| == 1 && f.attributes[0].id == attributeId
    ensures f.attributes[0].attribute == "" && f.attributes[0].value == ""
  {
    DetailsForm([Benefit(benefitId, "")], [Attribute(attributeId, "", "")], "")
  }

  /** The category is empty or one a picker option stores. */
  predicate ValidDetails(f: DetailsForm) {
    f.category == "" || exists c :: f.category == CategoryLabel(c)
  }

  /** The list without every entry whose id is `id` (`filter` on the id). */
  function DeleteById<T>(idOf: T -> string, xs: seq<T>, id: string): (r: seq<T>)
    ensures |r| <= |xs|
    ensures forall i :: 0 <= i < |r| ==> idOf(r[i]) != id && r[i] in xs
    ensures forall i :: 0 <= i < |xs| && idOf(xs[i]) != id ==> xs[i] in r
  {
    Filter((x: T) => idOf(x) != id, xs)
  }

  function AddBenefit(bs: seq<Benefit>, newId: string): (r: seq<Benefit>)
    ensures |r| == |bs| + 1 && r[..|bs|] == bs
    ensures r[|bs|].id == newId && r[|bs|].value == ""
  {
    bs + [Benefit(newId, "")]
  }

  /** Sets the text of every benefit with that id; nothing else changes. */
  function ChangeBenefit(bs: seq<Benefit>, id: string, text: string): (r: seq<Benefit>)
    ensures |r| == |bs|
    ensures forall i :: 0 <= i < |bs| ==> r[i].id == bs[i].id
    ensures forall i :: 0 <= i < |bs| && bs[i].id == id ==> r[i].value == text
    ensures forall i :: 0 <= i < |bs| && bs[i].id != id ==> r[i] == bs[i]
  {
    Map((b: Benefit) => if b.id == id then b.(value := text) else b, bs)
  }

  function DeleteBenefit(bs: seq<Benefit>, id: string): (r: seq<Benefit>)
    ensures forall i :: 0 <= i < |r| ==> r[i].id != id && r[i] in bs
    ensures forall i :: 0 <= i < |bs| && bs[i].id != id ==> bs[i] in r
  {
    DeleteById((b: Benefit) => b.id, bs, id)
  }

  function AddAttribute(attrs: seq<Attribute>, newId: string): (r: seq<Attribute>)
    ensures |r| == |attrs| + 1 && r[..|attrs|] == attrs
    ensures r[|attrs|].id == newId && r[|attrs|].attribute == "" && r[|attrs|].value == ""
  {
    attrs + [Attribute(newId, "", "")]
  }

  /** Sets the named field of every attribute with that id; the other field, the ids
      and every other row are unchanged. */
  function ChangeAttribute(attrs: seq<Attribute>, id: string, field: AttributeField, text: string): (r: seq<Attribute>)
    ensures |r| == |attrs|
    ensures forall i :: 0 <= i < |attrs| ==> r[i].id == attrs[i].id
    ensures forall i :: 0 <= i < |attrs| && attrs[i].id == id ==>
      match field
      case AttributeName => r[i].attribute == text && r[i].value == attrs[i].value
      case AttributeValue => r[i].value == text && r[i].attribute == attrs[i].attribute
    ensures forall i :: 0 <= i < |attrs| && attrs[i].id != id ==> r[i] == attrs[i]
  {
    Map((a: Attribute) =>
          if a.id != id then a
          else match field
            case AttributeName => a.(attribute := text)
            case AttributeValue => a.(value := text),
        attrs)
  }

  function DeleteAttribute(attrs: seq<Attribute>, id: string): (r: seq<Attribute>)
    ensures forall i :: 0 <= i < |r| ==> r[i].id != id && r[i] in attrs
    ensures forall i :: 0 <= i < |attrs| && attrs[i].id != id ==> attrs[i] in r
  {
    DeleteById((a: Attribute) => a.id, attrs, id)
  }

  /** The gate of the save button. */
  predicate CanNext(f: DetailsForm)
    ensures CanNext(f) <==> HasVisible(f.category)
  {
    |Trim(f.category)| > 0
  }

  predicate IsCompleteAttribute(a: Attribute) {
    a.attribute != "" && a.value != ""
  }

  function BenefitValue(b: Benefit): string {
    b.value
  }

  /** The benefit texts that are not empty, in order. */
  function SavedBenefits(bs: seq<Benefit>): (r: seq<string>)
    ensures forall i :: 0 <= i < |r| ==> r[i] != ""
    ensures forall i :: 0 <= i < |bs| && bs[i].value != "" ==> bs[i].value in r
    ensures forall i :: 0 <= i < |r| ==> exists j :: 0 <= j < |bs| && bs[j].value == r[i]
  {
    var vs := Map(BenefitValue, bs);
    var r := Filter(Truthy, vs);
    assert forall i :: 0 <= i < |r| ==> r[i] in vs;
    r
  }

  /** The attribute rows with both fields filled, in order. */
  function SavedAttributes(attrs: seq<Attribute>): (r: seq<Attribute>)
    ensures forall i :: 0 <= i < |r| ==> IsCompleteAttribute(r[i]) && r[i] in attrs
    ensures forall i :: 0 <= i < |attrs| && IsCompleteAttribute(attrs[i]) ==> attrs[i] in r
  {
    Filter(IsCompleteAttribute, attrs)
  }

  /** `handleSave`'s item: the draft's fields (none without a draft), the saved lists,
      the category as selected, and the new id. */
  function HandleSave(itemData: Option<Draft>, f: DetailsForm, newId: string): (item: Item)
    ensures item.id == newId && item.category == f.category
    ensures item.name == (if itemData.Some? then Some(itemData.value.name) else None)
    ensures item.description == (if itemData.Some? then Some(itemData.value.description) else None)
    ensures item.price == (if itemData.Some? then Some(itemData.value.price) else None)
    ensures item.coverPhotos == (if itemData.Some? then Some(itemData.value.coverPhotos) else None)
    ensures item.benefits == SavedBenefits(f.benefits)
    ensures item.attributes == SavedAttributes(f.attributes)
  {
    match itemData
    case Some(d) =>
      Item(newId, Some(d.name), Some(d.description), Some(d.price), Some(d.coverPhotos),
           SavedBenefits(f.benefits), SavedAttributes(f.attributes), f.category)
    case None =>
      Item(newId, None, None, None, None, SavedBenefits(f.benefits), SavedAttributes(f.attributes), f.category)
  }

  /** Pressing save: when the button is enabled, exactly one item, the one `handleSave`
      builds, is appended to the store; otherwise the store is unchanged. */
  function PressSave(s: ItemsState, itemData: Option<Draft>, f: DetailsForm, newId: string): (t: ItemsState)
    ensures CanNext(f) ==> t.items == s.items + [HandleSave(itemData, f, newId)]
    ensures !CanNext(f) ==> t == s
  {
    if CanNext(f) then Reduce(s, AddItem(HandleSave(itemData, f, newId))) else s
  }

  /** The input events of the screen. New rows carry the id `Date.now()` gave them. */
  datatype DetailsEvent =
    | AddBenefitRow(newId: string)
    | EditBenefit(id: string, text: string)
    | DeleteBenefitRow(id: string)
    | AddAttributeRow(newId: string)
    | EditAttribute(id: string, field: AttributeField, text: string)
    | DeleteAttributeRow(id: string)
    | SelectCategory(option: CategoryOption)

  /** One user input on the screen: the list handlers touch only their list, and only
      the picker touches the category. */
  function Step(f: DetailsForm, e: DetailsEvent): (g: DetailsForm)
    ensures ValidDetails(f) ==> ValidDetails(g)
    ensures g.category != f.category ==> e.SelectCategory? && g.category in CategoryLabels
    ensures g.benefits != f.benefits ==> e.AddBenefitRow? || e.EditBenefit? || e.DeleteBenefitRow?
    ensures g.attributes != f.attributes ==> e.AddAttributeRow? || e.EditAttribute? || e.DeleteAttributeRow?
  {
    match e
    case AddBenefitRow(newId) => f.(benefits := AddBenefit(f.benefits, newId))
    case EditBenefit(id, t) => f.(benefits := ChangeBenefit(f.benefits, id, t))
    case DeleteBenefitRow(id) => f.(benefits := DeleteBenefit(f.benefits, id))
    case AddAttributeRow(newId) => f.(attributes := AddAttribute(f.attributes, newId))
    case EditAttribute(id, field, t) => f.(attributes := ChangeAttribute(f.attributes, id, field, t))
    case DeleteAttributeRow(id) => f.(attributes := DeleteAttribute(f.attributes, id))
    case SelectCategory(c) => f.(category := CategoryLabel(c))
  }

  function Run(f: DetailsForm, es: seq<DetailsEvent>): DetailsForm
    decreases |es|
  {
    if |es| == 0 then f else Run(Step(f, es[0]), es[1..])
  }

  lemma {:induction false} RunKeepsValid(f: DetailsForm, es: seq<DetailsEvent>)
    requires ValidDetails(f)
    ensures ValidDetails(Run(f, es))
    decreases |es|
  {
    if |es| > 0 {
      RunKeepsValid(Step(f, es[0]), es[1..]);
    }
  }

  /** No picker label has white space at either end, so trimming leaves it alone. */
  lemma LabelsAreTrimmed(c: CategoryOption)
    ensures Trim(CategoryLabel(c)) == CategoryLabel(c)
  {
    var s := CategoryLabel(c);
    assert !IsJsSpace(s[0]) && !IsJsSpace(s[|s| - 1]);
    TrimOfTrimmed(s);
  }

  /** On a valid form, save is enabled exactly when a category was picked, and the
      category is then one of the four labels. */
  lemma CanNextIff(f: DetailsForm)
    requires ValidDetails(f)
    ensures CanNext(f) <==> f.category != ""
    ensures CanNext(f) <==> exists c :: f.category == CategoryLabel(c)
  {
    if f.category != "" {
      var c :| f.category == CategoryLabel(c);
      LabelsAreTrimmed(c);
    }
  }

  /** Whatever the user does, the category is '' or one of the four labels. */
  lemma ReachableCategory(b: string, a: string, es: seq<DetailsEvent>)
    ensures var g := Run(InitialDetails(b, a), es);
      g.category == "" || g.category in CategoryLabels
  {
    RunKeepsValid(InitialDetails(b, a), es);
    var g := Run(InitialDetails(b, a), es);
    if g.category != "" {
      var c :| g.category == CategoryLabel(c);
    }
  }

  /** The initial form cannot be saved, and its blank rows would be dropped on save. */
  lemma InitialDetailsBlank(b: string, a: string)
    ensures !CanNext(InitialDetails(b, a))
    ensures SavedBenefits(InitialDetails(b, a).benefits) == []
    ensures SavedAttributes(InitialDetails(b, a).attributes) == []
  {
    var f := InitialDetails(b, a);
    BlankBenefitDropped(f.benefits);
    BlankAttributeDropped(f.attributes);
  }

  lemma BlankBenefitDropped(bs: seq<Benefit>)
    requires |bs| == 1 && bs[0].value == ""
    ensures SavedBenefits(bs) == []
  {
    assert Map(BenefitValue, bs) == [""];
    FilterDropsAll(Truthy, [""]);
  }

  lemma BlankAttributeDropped(attrs: seq<Attribute>)
    requires |attrs| == 1 && attrs[0].attribute == "" && attrs[0].value == ""
    ensures SavedAttributes(attrs) == []
  {
    FilterDropsAll(IsCompleteAttribute, attrs);
  }

  /** Deleting by id removes every row with that id, keeps each other row as often as it
      occurred, and keeps their order: deleting from a concatenation is deleting from
      each part. */
  lemma DeleteByIdSpec<T>(idOf: T -> string, xs: seq<T>, ys: seq<T>, id: string, x: T)
    ensures DeleteById(idOf, xs + ys, id) == DeleteById(idOf, xs, id) + DeleteById(idOf, ys, id)
    ensures multiset(DeleteById(idOf, xs, id))[x] == if idOf(x) == id then 0 else multiset(xs)[x]
  {
    FilterAppend((y: T) => idOf(y) != id, xs, ys);
    FilterCount((y: T) => idOf(y) != id, xs, x);
  }

  /** Deleting an id no row carries changes nothing, and deleting twice is deleting once. */
  lemma DeleteByIdIdempotent<T>(idOf: T -> string, xs: seq<T>, id: string)
    ensures DeleteById(idOf, DeleteById(idOf, xs, id), id) == DeleteById(idOf, xs, id)
    ensures (forall i :: 0 <= i < |xs| ==> idOf(xs[i]) != id) ==> DeleteById(idOf, xs, id) == xs
  {
    FilterIdempotent((y: T) => idOf(y) != id, xs);
    if forall i :: 0 <= i < |xs| ==> idOf(xs[i]) != id {
      FilterKeepsAll((y: T) => idOf(y) != id, xs);
    }
  }

  /** Deleting an id undoes every edit made to rows with that id: editing and then
      deleting equals deleting. No freshness of ids is assumed. */
  lemma {:induction false} DeleteAfterChangeBenefit(bs: seq<Benefit>, id: string, text: string)
    ensures DeleteBenefit(ChangeBenefit(bs, id, text), id) == DeleteBenefit(bs, id)
  {
    if |bs| > 0 {
      DeleteAfterChangeBenefit(bs[1..], id, text);
      assert ChangeBenefit(bs, id, text)[1..] == ChangeBenefit(bs[1..], id, text);
    }
  }

  /** A benefit row added with an id no other row has is gone again after deleting that
      id, whatever was typed into it in between. */
  lemma DeleteUndoesAddBenefit(bs: seq<Benefit>, newId: string, text: string)
    requires forall i :: 0 <= i < |bs| ==> bs[i].id != newId
    ensures DeleteBenefit(AddBenefit(bs, newId), newId) == bs
    ensures DeleteBenefit(ChangeBenefit(AddBenefit(bs, newId), newId, text), newId) == bs
  {
    DeleteByIdSpec((b: Benefit) => b.id, bs, [Benefit(newId, "")], newId, Benefit(newId, ""));
    DeleteByIdIdempotent((b: Benefit) => b.id, bs, newId);
    DeleteAfterChangeBenefit(AddBenefit(bs, newId), newId, text);
  }

  /** The same for attribute rows: a fresh row deleted by its id leaves the list as it
      was, whatever was typed into it. */
  lemma DeleteUndoesAddAttribute(attrs: seq<Attribute>, newId: string, field: AttributeField, text: string)
    requires forall i :: 0 <= i < |attrs| ==> attrs[i].id != newId
    ensures DeleteAttribute(AddAttribute(attrs, newId), newId) == attrs
    ensures DeleteAttribute(ChangeAttribute(AddAttribute(attrs, newId), newId, field, text), newId) == attrs
  {
    var blank := Attribute(newId, "", "");
    var edited := match field
      case AttributeName => blank.(attribute := text)
      case AttributeValue => blank.(value := text);
    assert ChangeAttribute(AddAttribute(attrs, newId), newId, field, text) == attrs + [edited];
    DeleteByIdSpec((a: Attribute) => a.id, attrs, [blank], newId, blank);
    DeleteByIdSpec((a: Attribute) => a.id, attrs, [edited], newId, edited);
    DeleteByIdIdempotent((a: Attribute) => a.id, attrs, newId);
  }

  /** The saved benefits are the non-empty texts in order: saving two halves gives the
      halves' benefits one after the other, and a non-empty text is kept as often as rows
      carry it. */
  lemma SavedBenefitsSpec(a: seq<Benefit>, b: seq<Benefit>, text: string)
    ensures SavedBenefits(a + b) == SavedBenefits(a) + SavedBenefits(b)
    ensures text != "" ==> multiset(SavedBenefits(a))[text] == multiset(Map(BenefitValue, a))[text]
  {
    MapAppend(BenefitValue, a, b);
    FilterAppend(Truthy, Map(BenefitValue, a), Map(BenefitValue, b));
    FilterCount(Truthy, Map(BenefitValue, a), text);
  }

  /** The saved attributes are exactly the complete rows, in order and with multiplicity. */
  lemma SavedAttributesSpec(a: seq<Attribute>, b: seq<Attribute>, x: Attribute)
    ensures SavedAttributes(a + b) == SavedAttributes(a) + SavedAttributes(b)
    ensures multiset(SavedAttributes(a))[x] == if IsCompleteAttribute(x) then multiset(a)[x] else 0
  {
    FilterAppend(IsCompleteAttribute, a, b);
    FilterCount(IsCompleteAttribute, a, x);
  }
}

=== FILE: flow.dfy ===
/** The creation wizard end to end: a draft from the About step, saved by the Details
    step into the store, then looked up by the detail screen. */
module CreateFlow {
  import opened JsText
  import opened ItemModel
  import opened AboutStep
  import opened DetailsStep
  import opened ItemsSlice
  import opened ItemDetail

  /** The shape every item created through the wizard has: a visible, trimmed name, a
      description of at most 2000 characters, a positive price, at most five non-empty
      cover photos, non-empty benefits, attributes with both fields filled, and one of the
      four categories. */
  predicate WellFormedItem(item: Item) {
    && item.name.Some? && item.name.value != "" && Trim(item.name.value) == item.name.value
    && item.description.Some? && |item.description.value| <= MaxDesc
    && item.price.Some? && item.price.value > 0.0
    && item.coverPhotos.Some? && |item.coverPhotos.value| <= MaxCovers
    && (forall i :: 0 <= i < |item.coverPhotos.value| ==> item.coverPhotos.value[i] != "")
    && (forall i :: 0 <= i < |item.benefits| ==> item.benefits[i] != "")
    && (forall i :: 0 <= i < |item.attributes| ==>
          item.attributes[i].attribute != "" && item.attributes[i].value != "")
    && item.category in CategoryLabels
  }

  /** With both buttons enabled, saving appends exactly one item to the store, and that
      item is well formed. */
  lemma WizardSavesWellFormedItem(f: AboutForm, g: DetailsForm, s: ItemsState, newId: string)
    requires ValidAbout(f) && ValidDetails(g)
    ensures CanProceed(f) ==> PressNext(f).Some?
    ensures CanProceed(f) && CanNext(g) ==>
      var item := HandleSave(PressNext(f), g, newId);
      && PressSave(s, PressNext(f), g, newId).items == s.items + [item]
      && WellFormedItem(item)
  {
    if CanProceed(f) && CanNext(g) {
      DraftBounds(f);
      CanNextIff(g);
      var c :| g.category == CategoryLabel(c);
    }
  }

  /** A freshly saved item whose id no stored item shares is what the detail screen
      shows for that id: its avatar is the start of its name and its button offers to
      buy at its price, since the wizard only saves positive prices. */
  lemma SavedItemIsShown(f: AboutForm, g: DetailsForm, s: ItemsState, newId: string)
    requires ValidAbout(f) && ValidDetails(g)
    requires forall j :: 0 <= j < |s.items| ==> s.items[j].id != newId
    ensures CanProceed(f) && CanNext(g) ==>
      var item := HandleSave(PressNext(f), g, newId);
      var v := ViewItem(PressSave(s, PressNext(f), g, newId), newId);
      && v.Found? && v.item == item
      && v.button == BuyFor(item.price.value)
      && |v.avatar| <= |item.name.value| && v.avatar == item.name.value[..|v.avatar|]
  {
    if CanProceed(f) && CanNext(g) {
      WizardSavesWellFormedItem(f, g, s, newId);
      var item := HandleSave(PressNext(f), g, newId);
      FindAfterAdd(s, item, newId);
    }
  }

  /** Whatever the user types on the two screens, starting from their initial state,
      pressing Next and then save stores exactly one well-formed item. */
  lemma ReachableWizardSavesWellFormedItem(
    aboutEvents: seq<AboutEvent>, b: string, a: string, detailsEvents: seq<DetailsEvent>,
    s: ItemsState, newId: string)
    ensures var f := AboutStep.Run(InitialAbout(), aboutEvents);
      var g := DetailsStep.Run(InitialDetails(b, a), detailsEvents);
      CanProceed(f) && CanNext(g) ==>
        var item := HandleSave(PressNext(f), g, newId);
        && PressSave(s, PressNext(f), g, newId).items == s.items + [item]
        && WellFormedItem(item)
  {
    var f := AboutStep.Run(InitialAbout(), aboutEvents);
    var g := DetailsStep.Run(InitialDetails(b, a), detailsEvents);
    AboutStep.RunKeepsValid(InitialAbout(), aboutEvents);
    DetailsStep.RunKeepsValid(InitialDetails(b, a), detailsEvents);
    WizardSavesWellFormedItem(f, g, s, newId);
  }
}

=== FILE: itemmodel.dfy ===
/** The records passed between the screens and kept in the store. */
module ItemModel {
  import opened Wrappers

  /** The draft the About step hands to the Details step (`itemData`). */
  datatype Draft = Draft(name: string, description: string, price: real, coverPhotos: seq<string>)

  /** One key/value row of the "Additional details" list; saved rows keep their id. */
  datatype Attribute = Attribute(id: string, attribute: string, value: string)

  /** A stored item. The four fields copied from the draft are absent when the Details
      step was opened without a draft (`...undefined` spreads nothing). */
  datatype Item = Item(
    id: string,
    name: Option<string>,
    description: Option<string>,
    price: Option<real>,
    coverPhotos: Option<seq<string>>,
    benefits: seq<string>,
    attributes: seq<Attribute>,
    category: string)
}

=== FILE: jstext.dfy ===
/** The JavaScript string operations the screens rely on: `String.prototype.trim`
    and the truthiness of a string. */
module JsText {

  /** The characters `trim` strips: ECMAScript's WhiteSpace and LineTerminator
      productions (TAB, VT, FF, SPACE, NBSP, ZWNBSP, the Zs category, LF, CR, LS, PS). */
  predicate IsJsSpace(c: char) {
    || c == '\t' || c == '\n' || c == '\U{000B}' || c == '\U{000C}' || c == '\r'
    || c == ' ' || c == '\U{00A0}' || c == '\U{1680}'
    || ('\U{2000}' <= c <= '\U{200A}')
    || c == '\U{2028}' || c == '\U{2029}' || c == '\U{202F}' || c == '\U{205F}'
    || c == '\U{3000}' || c == '\U{FEFF}'
  }

  /** `Boolean(s)` for a string: only the empty string is falsy. */
  predicate Truthy(s: string) {
    |s| > 0
  }

  /** True when `s` holds at least one character that `trim` would keep. */
  predicate HasVisible(s: string) {
    exists i :: 0 <= i < |s| && !IsJsSpace(s[i])
  }

  /** `s` with its leading white space removed. */
  function TrimStart(s: string): (r: string)
    ensures |r| <= |s| && r == s[|s| - |r|..]
    ensures forall i :: 0 <= i < |s| - |r| ==> IsJsSpace(s[i])
    ensures |r| > 0 ==> !IsJsSpace(r[0])
  {
    if |s| > 0 && IsJsSpace(s[0]) then TrimStart(s[1..]) else s
  }

  /** `s` with its trailing white space removed. */
  function TrimEnd(s: string): (r: string)
    ensures |r| <= |s| && r == s[..|r|]
    ensures forall i :: |r| <= i < |s| ==> IsJsSpace(s[i])
    ensures |r| > 0 ==> !IsJsSpace(r[|r| - 1])
  {
    if |s| > 0 && IsJsSpace(s[|s| - 1]) then TrimEnd(s[..|s| - 1]) else s
  }

  /** `s[a..b]` is what remains of `s` once white space is cut from both ends: every
      character before `a` and every character from `b` on is white space. */
  predicate StripsTo(s: string, a: int, b: int) {
    && 0 <= a <= b <= |s|
    && (forall i :: 0 <= i < a ==> IsJsSpace(s[i]))
    && (forall i :: b <= i < |s| ==> IsJsSpace(s[i]))
  }

  /** `s.trim()`: the input with its leading and trailing white space cut away, so a
      piece of `s` that neither starts nor ends with white space, empty exactly when `s`
      holds nothing but white space. */
  function Trim(s: string): (r: string)
    ensures |r| <= |s|
    ensures exists a, b :: StripsTo(s, a, b) && r == s[a..b]
    ensures |r| > 0 ==> !IsJsSpace(r[0]) && !IsJsSpace(r[|r| - 1])
    ensures |r| > 0 <==> HasVisible(s)
  {
    var t := TrimStart(s);
    var r := TrimEnd(t);
    TrimStartVisible(s);
    TrimEndVisible(t);
    TrimSlice(s, t, r);
    assert StripsTo(s, |s| - |t|, |s| - |t| + |r|);
    r
  }

  /** The witnesses for `Trim`: when `t` is what remains of `s` after its leading white
      space and `r` what remains of `t` after its trailing white space, `r` is the slice
      of `s` that starts where `t` does and is as long as `r`. */
  lemma TrimSlice(s: string, t: string, r: string)
    requires |t| <= |s| && t == s[|s| - |t|..]
    requires forall i :: 0 <= i < |s| - |t| ==> IsJsSpace(s[i])
    requires |r| <= |t| && r == t[..|r|]
    requires forall i :: |r| <= i < |t| ==> IsJsSpace(t[i])
    ensures var a := |s| - |t|; StripsTo(s, a, a + |r|) && r == s[a..a + |r|]
  {
    var a := |s| - |t|;
    PrefixOfSuffix(s, t, r, a);
    TrailingSpace(s, t, r, a);
  }

  /** A prefix `r` of the suffix of `s` from `a` is the slice of `s` from `a`. */
  lemma PrefixOfSuffix(s: string, t: string, r: string, a: nat)
    requires a <= |s| && t == s[a..]
    requires |r| <= |t| && r == t[..|r|]
    ensures a + |r| <= |s| && r == s[a..a + |r|]
  {
  }

  /** What `TrimEnd` cut from the end of `t` is also the end of `s`, of which `t` is a
      suffix. */
  lemma TrailingSpace(s: string, t: string, r: string, a: nat)
    requires a <= |s| && t == s[a..]
    requires |r| <= |t| && forall i :: |r| <= i < |t| ==> IsJsSpace(t[i])
    ensures forall i :: a + |r| <= i < |s| ==> IsJsSpace(s[i])
  {
    forall i | a + |r| <= i < |s|
      ensures IsJsSpace(s[i])
    {
      assert s[i] == t[i - a];
    }
  }

  /** A worked case: " ab " trims to "ab". */
  lemma TrimExample()
    ensures Trim(" ab ") == "ab"
  {
    TrimStartExample();
    TrimEndExample();
  }

  lemma TrimStartExample()
    ensures TrimStart(" ab ") == "ab "
  {
    assert " ab "[1..] == "ab ";
    assert !IsJsSpace('a');
  }

  lemma TrimEndExample()
    ensures TrimEnd("ab ") == "ab"
  {
    assert "ab "[..2] == "ab";
    assert !IsJsSpace('b');
  }

  /** Removing leading white space neither adds nor loses a visible character. */
  lemma {:induction false} TrimStartVisible(s: string)
    ensures HasVisible(TrimStart(s)) <==> HasVisible(s)
    decreases |s|
  {
    if |s| > 0 && IsJsSpace(s[0]) {
      TrimStartVisible(s[1..]);
      DropSpaceVisible(s);
    }
  }

  /** A leading white-space character is not visible. */
  lemma DropSpaceVisible(s: string)
    requires |s| > 0 && IsJsSpace(s[0])
    ensures HasVisible(s[1..]) <==> HasVisible(s)
  {
    if HasVisible(s) {
      var i :| 0 <= i < |s| && !IsJsSpace(s[i]);
      assert s[1..][i - 1] == s[i];
    }
    if HasVisible(s[1..]) {
      var i :| 0 <= i < |s| - 1 && !IsJsSpace(s[1..][i]);
      assert s[i + 1] == s[1..][i];
    }
  }

  /** Removing trailing white space from a string keeps its first character, and
      leaves something exactly when the string holds a visible character. */
  lemma TrimEndVisible(t: string)
    ensures |TrimEnd(t)| > 0 <==> HasVisible(t)
    ensures |TrimEnd(t)| > 0 ==> TrimEnd(t)[0] == t[0]
  {
    var r := TrimEnd(t);
    if HasVisible(t) {
      var i :| 0 <= i < |t| && !IsJsSpace(t[i]);
      assert i < |r|;
    }
    if |r| > 0 {
      assert r[0] == t[0];
      assert !IsJsSpace(t[|r| - 1]);
    }
  }

  /** A string with no white space at either end is its own trim. */
  lemma TrimOfTrimmed(s: string)
    requires |s| > 0 ==> !IsJsSpace(s[0]) && !IsJsSpace(s[|s| - 1])
    ensures Trim(s) == s
  {
  }

  /** Trimming is idempotent. */
  lemma TrimIdempotent(s: string)
    ensures Trim(Trim(s)) == Trim(s)
  {
    TrimOfTrimmed(Trim(s));
  }

  /** The trimmed string is empty exactly when every character is white space. */
  lemma TrimEmptyIff(s: string)
    ensures Trim(s) == "" <==> forall i :: 0 <= i < |s| ==> IsJsSpace(s[i])
  {
  }
}

=== FILE: price.dfy ===
/** The price field of the About step: the raw text is sanitised by deleting every
    character other than a digit or '.', converted with JavaScript's `Number`, and a
    non-finite result is replaced by 0. */
module Price {
  import opened Wrappers
  import opened Seqs

  predicate IsDigit(c: char) {
    '0' <= c <= '9'
  }

  predicate IsDot(c: char) {
    c == '.'
  }

  /** The characters the pattern `[^0-9.]` does not match. */
  predicate IsPriceChar(c: char) {
    IsDigit(c) || IsDot(c)
  }

  /** A string the sanitiser can produce: digits and dots only. */
  predicate IsPriceText(s: string) {
    forall i :: 0 <= i < |s| ==> IsPriceChar(s[i])
  }

  predicate AllDigits(s: string) {
    forall i :: 0 <= i < |s| ==> IsDigit(s[i])
  }

  /** The number of '.' characters in `s`. */
  function Dots(s: string): nat {
    |Filter(IsDot, s)|
  }

  /** The sanitiser: every character that is not a digit or '.' is deleted. */
  function Sanitise(raw: string): (r: string)
    ensures IsPriceText(r)
    ensures forall i :: 0 <= i < |r| ==> r[i] in raw
    ensures forall i :: 0 <= i < |raw| && IsPriceChar(raw[i]) ==> raw[i] in r
    ensures '-' !in r
  {
    Filter(IsPriceChar, raw)
  }

  /** The sanitiser works character by character, so the retained characters stay in
      their original order. */
  lemma SanitiseAppend(a: string, b: string)
    ensures Sanitise(a + b) == Sanitise(a) + Sanitise(b)
  {
    FilterAppend(IsPriceChar, a, b);
  }

  /** Sanitising is idempotent, and text that is already clean is left alone. */
  lemma SanitiseIdempotent(raw: string)
    ensures Sanitise(Sanitise(raw)) == Sanitise(raw)
  {
    FilterIdempotent(IsPriceChar, raw);
  }

  lemma SanitiseClean(s: string)
    requires IsPriceText(s)
    ensures Sanitise(s) == s
  {
    FilterKeepsAll(IsPriceChar, s);
  }

  function DigitValue(c: char): nat
    requires IsDigit(c)
  {
    c as int - '0' as int
  }

  /** The value of a string of decimal digits, most significant first. */
  function DigitsValue(ds: string): nat
    requires AllDigits(ds)
  {
    if |ds| == 0 then 0 else 10 * DigitsValue(ds[..|ds| - 1]) + DigitValue(ds[|ds| - 1])
  }

  function Pow10(n: nat): (r: nat)
    ensures r >= 1
  {
    if n == 0 then 1 else 10 * Pow10(n - 1)
  }

  /** The position of the first '.', or |s| when there is none. */
  function IndexOfDot(s: string): (k: nat)
    ensures k <= |s|
    ensures forall i :: 0 <= i < k ==> s[i] != '.'
    ensures k < |s| ==> s[k] == '.'
  {
    if |s| == 0 || s[0] == '.' then 0 else 1 + IndexOfDot(s[1..])
  }

  /** The mathematical value of a digits-and-dots string read as ECMAScript's
      StrUnsignedDecimalLiteral: digits, optionally one '.', optionally more digits,
      with at least one digit in all. `None` when the string is not such a literal. */
  function DecimalValue(s: string): Option<real>
    requires IsPriceText(s)
  {
    var k := IndexOfDot(s);
    var whole := s[..k];
    assert AllDigits(whole);
    if k == |s| then
      if |s| == 0 then None else Some(DigitsValue(s) as real)
    else
      var frac := s[k + 1..];
      if '.' in frac || (|whole| == 0 && |frac| == 0) then None
      else
        assert AllDigits(frac);
        Some(DigitsValue(whole) as real + DigitsValue(frac) as real / Pow10(|frac|) as real)
  }

  /** The smallest real that an IEEE 754 double rounds up to +Infinity: 2^1024 - 2^970. */
  const OverflowBound: real := 179769313486231580793728971405303415079934132710037826936173778980444968292764750946649017977587207096330286416692887910946555547851940402630657488671505820681908902000708383676273854845817711531764475730270069855571366959622842914819860834936475292719074168444365510704342711559699508093042880177904174497792.0

  /** Half the smallest subnormal double, 2^-1075: positive reals up to it round to +0. */
  const UnderflowBound: real := 1.0 / 404804506614621236704990693437834614099113299528284236713802716054860679135990693783920767402874248990374155728633623822779617474771586953734026799881477019843034848553132722728933815484186432682479535356945490137124014966849385397236206711298319112681620113024717539104666829230461005064372655017292012526615415482186989568.0

  /** A JavaScript number, as far as the price logic can tell them apart. */
  datatype JsNumber = Finite(value: real) | NaN | Infinity

  /** The double nearest to a non-negative real, reduced to what matters here: too
      large becomes +Infinity and too small becomes 0. */
  function ToDouble(v: real): (n: JsNumber)
    requires v >= 0.0
    ensures n.Finite? <==> v < OverflowBound
    ensures n.Finite? ==> (n.value > 0.0 <==> v > UnderflowBound)
  {
    if v >= OverflowBound then Infinity
    else if v <= UnderflowBound then Finite(0.0)
    else Finite(v)
  }

  /** `Number(s)` for a string of digits and dots: the empty string is 0, a decimal
      literal is its value as a double, anything else is NaN. */
  function ToNumber(s: string): (n: JsNumber)
    requires IsPriceText(s)
    ensures n.Finite? ==> n.value >= 0.0
  {
    if |s| == 0 then Finite(0.0)
    else
      match DecimalValue(s)
      case None => NaN
      case Some(v) => ToDouble(v)
  }

  /** The `price` memo: the sanitised text as a number, 0 unless that is finite. */
  function ParsePrice(raw: string): (p: real)
    ensures p >= 0.0
  {
    match ToNumber(Sanitise(raw))
    case Finite(v) => v
    case _ => 0.0
  }

  /** For a digits-and-dots string, when it is a decimal literal: at most one dot and
      at least one digit. */
  lemma DecimalValueDefined(s: string)
    requires IsPriceText(s)
    ensures DecimalValue(s).Some? <==> Dots(s) <= 1 && Dots(s) < |s|
    ensures DecimalValue(s).Some? ==> DecimalValue(s).value >= 0.0
  {
    var k := IndexOfDot(s);
    if k == |s| {
      DotsNone(s);
    } else {
      var frac := s[k + 1..];
      DotsAtFirst(s, k);
      DotsNone(frac);
      assert |s| == k + 1 + |frac|;
      assert Dots(frac) <= |frac|;
    }
  }

  /** A string without '.' has no dots, and a string with one has at least one. */
  lemma DotsNone(s: string)
    ensures Dots(s) == 0 <==> '.' !in s
  {
    if '.' !in s {
      FilterDropsAll(IsDot, s);
    } else {
      var j :| 0 <= j < |s| && s[j] == '.';
      assert s[j] in Filter(IsDot, s);
    }
  }

  /** The dots of a string split at its first '.' are that one plus those after it. */
  lemma DotsAtFirst(s: string, k: nat)
    requires k < |s| && s[k] == '.'
    requires forall i :: 0 <= i < k ==> s[i] != '.'
    ensures Dots(s) == 1 + Dots(s[k + 1..])
  {
    var whole := s[..k];
    var frac := s[k + 1..];
    FilterDropsAll(IsDot, whole);
    assert s == whole + [s[k]] + frac;
    FilterAppend(IsDot, whole + [s[k]], frac);
    FilterAppend(IsDot, whole, [s[k]]);
  }

  /** The price is never negative and is 0 whenever the sanitised text is not a
      finite number: empty, a lone '.', no digit at all, or two or more dots. */
  lemma PriceZeroWhenMalformed(raw: string)
    ensures var s := Sanitise(raw);
      (s == "" || s == "." || Dots(s) == |s| || Dots(s) >= 2) ==> ParsePrice(raw) == 0.0
  {
    var s := Sanitise(raw);
    DecimalValueDefined(s);
    if s == "." {
      assert Filter(IsDot, s) == ['.'];
    }
  }

  /** The price is the decimal value of the retained digits and dot whenever that
      value is representable, rounding aside. */
  lemma PriceOfDecimal(raw: string)
    requires var s := Sanitise(raw); DecimalValue(s).Some? && DecimalValue(s).value < OverflowBound
    ensures var v := DecimalValue(Sanitise(raw)).value;
      ParsePrice(raw) == if v <= UnderflowBound then 0.0 else v
  {
    DecimalValueDefined(Sanitise(raw));
  }

  /** Exactly when the price is positive: the retained text is a decimal literal whose
      value a double can hold as a positive finite number. */
  lemma PricePositiveIff(raw: string)
    ensures ParsePrice(raw) > 0.0 <==>
      var s := Sanitise(raw);
      && DecimalValue(s).Some?
      && UnderflowBound < DecimalValue(s).value < OverflowBound
  {
    var s := Sanitise(raw);
    DecimalValueDefined(s);
    if |s| == 0 {
      assert Dots(s) == 0;
    }
  }

  /** Only the retained characters matter: the price of the sanitised text is the
      price of the raw text. */
  lemma PriceIgnoresNoise(raw: string)
    ensures ParsePrice(Sanitise(raw)) == ParsePrice(raw)
  {
    SanitiseIdempotent(raw);
  }

  /** "12.50" reads as twelve and a half. */
  lemma DecimalExample()
    ensures DecimalValue("12.50") == Some(12.5)
  {
    var t := "12.50";
    assert t[1..] == "2.50" && t[2..] == ".50";
    assert IndexOfDot(t) == 2;
    assert t[..2] == "12" && t[3..] == "50";
    assert "12"[..1] == "1" && "50"[..1] == "5";
    assert DigitsValue("12") == 12;
    assert DigitsValue("50") == 50;
    assert Pow10(2) == 100;
  }

  lemma PriceExampleDecimal()
    ensures ParsePrice("12.50") == 12.5
  {
    SanitiseClean("12.50");
    DecimalExample();
    assert ToDouble(12.5) == Finite(12.5);
  }

  /** A minus sign is deleted, not honoured: "-7" prices at 7. */
  lemma PriceExampleMinus()
    ensures ParsePrice("-7") == 7.0
  {
    assert "-7"[1..] == "7";
    assert "7"[1..] == "";
    assert Sanitise("-7") == "7";
    assert "7"[..0] == "";
    assert DigitsValue("7") == 7;
  }

  /** Two dots make `Number` return NaN, which the memo turns into 0. */
  lemma PriceExampleTwoDots()
    ensures ParsePrice("1.2.3") == 0.0
  {
    TwoDotsClean();
    TwoDotsUndefined();
  }

  lemma TwoDotsClean()
    ensures Sanitise("1.2.3") == "1.2.3"
  {
    assert IsPriceText("1.2.3");
    SanitiseClean("1.2.3");
  }

  lemma TwoDotsUndefined()
    ensures DecimalValue("1.2.3") == None
  {
    var s := "1.2.3";
    assert s[1..] == ".2.3";
    assert IndexOfDot(s) == 1;
    assert s[2..] == "2.3" && s[2..][1] == '.';
  }
}

=== FILE: seqs.dfy ===
/** Sequence operations shared by the screens: JavaScript's `Array.prototype.filter`
    and `Array.prototype.map` on immutable sequences, with the facts the model needs. */
module Seqs {

  /** The elements of `s` that satisfy `p`, in their original order. */
  function Filter<T>(p: T -> bool, s: seq<T>): (r: seq<T>)
    ensures |r| <= |s|
    ensures forall i :: 0 <= i < |r| ==> p(r[i])
    ensures forall i :: 0 <= i < |r| ==> r[i] in s
    ensures forall i :: 0 <= i < |s| && p(s[i]) ==> s[i] in r
  {
    if |s| == 0 then []
    else if p(s[0]) then [s[0]] + Filter(p, s[1..])
    else Filter(p, s[1..])
  }

  /** `f` applied to every element of `s`, position by position. */
  function Map<T, U>(f: T -> U, s: seq<T>): (r: seq<U>)
    ensures |r| == |s|
    ensures forall i :: 0 <= i < |s| ==> r[i] == f(s[i])
  {
    seq(|s|, i requires 0 <= i < |s| => f(s[i]))
  }

  /** Filtering distributes over concatenation: kept elements stay in order. */
  lemma {:induction false} FilterAppend<T>(p: T -> bool, a: seq<T>, b: seq<T>)
    ensures Filter(p, a + b) == Filter(p, a) + Filter(p, b)
  {
    if |a| == 0 {
      assert a + b == b;
    } else {
      assert (a + b)[1..] == a[1..] + b;
      FilterAppend(p, a[1..], b);
    }
  }

  /** A sequence whose elements all pass the test is left as it is. */
  lemma {:induction false} FilterKeepsAll<T>(p: T -> bool, s: seq<T>)
    requires forall i :: 0 <= i < |s| ==> p(s[i])
    ensures Filter(p, s) == s
  {
    if |s| > 0 {
      FilterKeepsAll(p, s[1..]);
      assert [s[0]] + s[1..] == s;
    }
  }

  /** A sequence none of whose elements passes the test filters to nothing. */
  lemma {:induction false} FilterDropsAll<T>(p: T -> bool, s: seq<T>)
    requires forall i :: 0 <= i < |s| ==> !p(s[i])
    ensures Filter(p, s) == []
  {
    if |s| > 0 {
      FilterDropsAll(p, s[1..]);
    }
  }

  /** Filtering twice with the same test is filtering once. */
  lemma FilterIdempotent<T>(p: T -> bool, s: seq<T>)
    ensures Filter(p, Filter(p, s)) == Filter(p, s)
  {
    FilterKeepsAll(p, Filter(p, s));
  }

  /** Every kept value is kept as often as it occurs; every dropped value vanishes. */
  lemma {:induction false} FilterCount<T>(p: T -> bool, s: seq<T>, x: T)
    ensures multiset(Filter(p, s))[x] == if p(x) then multiset(s)[x] else 0
  {
    if |s| > 0 {
      FilterCount(p, s[1..], x);
      assert s == [s[0]] + s[1..];
      assert multiset(s) == multiset([s[0]]) + multiset(s[1..]);
    }
  }

  /** Mapping distributes over concatenation. */
  lemma MapAppend<T, U>(f: T -> U, a: seq<T>, b: seq<T>)
    ensures Map(f, a + b) == Map(f, a) + Map(f, b)
  {
  }
}

=== FILE: store.dfy ===
/** The `items` slice of the store: a list of items whose only action is `addItem`,
    which appends its payload. Any other action leaves the state as it is. */
module ItemsSlice {
  import opened Seqs
  import opened ItemModel

  datatype ItemsState = ItemsState(items: seq<Item>)

  datatype Action = AddItem(payload: Item) | Other(kind: string)

  function InitialState(): (s: ItemsState)
    ensures |s.items| == 0
  {
    ItemsState([])
  }

  /** The slice reducer. */
  function Reduce(s: ItemsState, a: Action): (t: ItemsState)
    ensures a.AddItem? ==>
      && |t.items| == |s.items| + 1
      && t.items[..|s.items|] == s.items
      && t.items[|s.items|] == a.payload
    ensures a.Other? ==> t == s
  {
    match a
    case AddItem(p) => ItemsState(s.items + [p])
    case Other(_) => s
  }

  function ReduceAll(s: ItemsState, acts: seq<Action>): ItemsState
    decreases |acts|
  {
    if |acts| == 0 then s else ReduceAll(Reduce(s, acts[0]), acts[1..])
  }

  /** The payloads of the `addItem` actions, in dispatch order. */
  function Payloads(acts: seq<Action>): (r: seq<Item>)
    ensures |r| <= |acts|
  {
    if |acts| == 0 then []
    else (if acts[0].AddItem? then [acts[0].payload] else []) + Payloads(acts[1..])
  }

  /** Dispatching a sequence of actions appends their payloads, in order, and never
      removes or reorders what was stored. */
  lemma {:induction false} ReduceAllAppends(s: ItemsState, acts: seq<Action>)
    ensures ReduceAll(s, acts).items == s.items + Payloads(acts)
    decreases |acts|
  {
    if |acts| > 0 {
      ReduceAllAppends(Reduce(s, acts[0]), acts[1..]);
    }
  }

  /** From the initial state the list is exactly the dispatched payloads. */
  lemma StoreIsPayloads(acts: seq<Action>)
    ensures ReduceAll(InitialState(), acts).items == Payloads(acts)
  {
    ReduceAllAppends(InitialState(), acts);
  }

  function HasId(id: string): Item -> bool {
    (i: Item) => i.id == id
  }

  /** How many stored items carry `id`. */
  function CountId(items: seq<Item>, id: string): nat {
    |Filter(HasId(id), items)|
  }

  /** `addItem` does not deduplicate: a payload whose id is already stored is still
      appended, so the number of items with that id grows by one. */
  lemma AddItemKeepsDuplicates(s: ItemsState, p: Item)
    ensures CountId(Reduce(s, AddItem(p)).items, p.id) == CountId(s.items, p.id) + 1
  {
    FilterAppend(HasId(p.id), s.items, [p]);
  }
}

=== FILE: wrappers.dfy ===
/** The optional value used wherever the app reads a field that may be absent
    (`undefined` in JavaScript) or a lookup that may fail. */
module Wrappers {

  datatype Option<+T> = None | Some(value: T)
}
